=== FILE: README.md ===
# Amplify GraphQL response core, modelled in Dafny

A model of the pure logic around the GraphQL response path of the Amplify iOS
SDK (API and DataStore categories):

- **Response envelope** (`AWSAppSyncGraphQLResponse`): a top-level JSON object
  is sorted into `data`, `errors`, `partial` or `invalidResponse`, or
  rejected when `errors` is not an array or `data` is neither an object nor
  null (`appsync_response.dfy`).
- **Response-to-model decoding** (`GraphQLResponseDecoder`): the decode path
  is resolved; a `String` or `AnyModel` response type is recognised by type,
  and any other type is decoded first and dispatched on the decoded value, so
  the `nil` of an optional model type is returned as it is; a model payload
  has its `__typename` and `id` read, and every to-many relation the payload
  lacks gets an association placeholder `{associatedId, associatedField}`; a
  list response becomes an `AppSyncListPayload` (`response_decoder.dfy`).
- **DataStore lazy load** (`DataStoreList+LazyLoad`): a `pending`/`loaded`
  list that resolves its relation with one equality query on a derived (or
  `belongsTo`-named) foreign key (`lazy_load.dfy`).
- **Document decorators** (`FilterDecorator`, `SortDecorator`,
  `QuerySortBy.graphQLSort`): single-key updates of a document's inputs
  (`filter_decorator.dfy`, `sort_decorator.dfy`, `query_sort.dfy`).

`json.dfy` holds the `JSONValue` tree, keyed access and the dot-path walk;
`schema.dfy` the model-schema metadata and the `PostV2`/`CommentV2`/`Comment6`
fixtures; `api_error.dfy` the errors; `graphql_document.dfy` the document
inputs; `wrappers.dfy` `Option` and `Result`.

Everything is a pure function over immutable values. Whatever the Swift code
gets from outside is a parameter here:

- the JSON that Foundation's decoder made of the response bytes;
- a `Codec`, which says whether Foundation's Codable round trip into the
  response type succeeds;
- the model registry, as a map from type name to schema;
- the camel-/Pascal-case helpers, as a `Casing` record;
- the answer of the DataStore query.

Where the code and the documented intent differ, the model follows the code:

- **Missing `__typename`.** Any response that decodes to a `Model` without a string
  `__typename` fails, because `getModelName` runs before the registry lookup.
  The unit test `testDecodeToModel` expects such a payload to decode. Against
  this code it would fail. `ResponseDecoder.DecodeToModelWithoutTypenameFails`
  shows the failure on that test's own input.
- **Which fields expand.** A field gets a placeholder when it is an array, has
  an association and names an inverse field. Whether the relation is has-many
  is not checked.
- **Whether `id` is read.** The `id` is required as soon as some field is an
  array association, even when that field names no inverse.
- **Malformed envelopes.** A malformed `errors` or `data` is an error. It is
  not an `invalidResponse`.

## Model

| member | source | states |
|---|---|---|
| AppSyncResponse.Classify | AmplifyPlugins/API/AWSAPICategoryPlugin/Support/Internal/AWSAppSyncGraphQLResponse.swift:19-82 | a malformed `errors` fails first, even when `data` is malformed too; otherwise a malformed `data` fails; with neither `errors` nor a usable `data` the result is `invalidResponse`; `data`, `errors` and `partial` each hold exactly when their keys have the right shapes, and they carry the object and the array unchanged, including an empty array |
| AppSyncResponse.DecodeToAWSAppSyncGraphQLResponse | AmplifyPlugins/API/AWSAPICategoryPlugin/Support/Internal/AWSAppSyncGraphQLResponse.swift:17-53 | bytes that do not parse fail with the "could not deserialize" error; a top-level value that is not an object fails before any classification; an object is classified |
| AppSyncResponse.EnvelopeRoundTrip | AmplifyPlugins/API/AWSAPICategoryPlugin/Support/Internal/AWSAppSyncGraphQLResponse.swift:22-31 | each of the four responses is recovered unchanged from the envelope that holds its parts |
| AppSyncResponse.OtherKeysIgnored | AmplifyPlugins/API/AWSAPICategoryPlugin/Support/Internal/AWSAppSyncGraphQLResponse.swift:55-82 | top-level keys other than `data` and `errors` never change the outcome |
| AppSyncResponse.ClassifyIsCanonical | AmplifyPlugins/API/AWSAPICategoryPlugin/Support/Internal/AWSAppSyncGraphQLResponse.swift:68-78 | a successful classification is recovered from its own envelope, so an explicit null `data` reads as no data |
| Json.Split | AmplifyPlugins/API/AWSAPICategoryPlugin/Support/Decode/GraphQLResponseDecoder+DecodeData.swift:127 | the dot-separated components of a decode path are free of dots and join back to the path |
| Json.SplitJoin | AmplifyPlugins/API/AWSAPICategoryPlugin/Support/Decode/GraphQLResponseDecoder+DecodeData.swift:127 | dot-free keys joined with dots split back into the same keys |
| Json.ValueAtAppend | AmplifyPlugins/API/AWSAPICategoryPlugin/Support/Decode/GraphQLResponseDecoder+DecodeData.swift:127 | looking up a longer path is looking up its prefix and then the rest, so a prefix that does not resolve makes the path fail |
| ResponseDecoder.ValueAtDecodePath | AmplifyPlugins/API/AWSAPICategoryPlugin/Support/Decode/GraphQLResponseDecoder+DecodeData.swift:122-132 | with no decode path the whole data object is the subtree; otherwise the call succeeds exactly when the path resolves, and it then returns that value; a failure's message ends with the path |
| ResponseDecoder.DecodePathOfKeys | AmplifyPlugins/API/AWSAPICategoryPlugin/Support/Decode/GraphQLResponseDecoder+DecodeData.swift:122-131 | a path of dot-free keys resolves exactly as a walk along those keys, and fails with the path error when the walk does |
| ResponseDecoder.DataPathLookup | AmplifyPlugins/API/AWSAPICategoryPlugin/Support/Decode/GraphQLResponseDecoder+DecodeData.swift:122-131 | `data.<field>` picks the object under `data` and then under `<field>` |
| ResponseDecoder.GetModelName | AmplifyPlugins/API/AWSAPICategoryPlugin/Support/Decode/GraphQLResponseDecoder+DecodeData.swift:75-88 | success exactly when the subtree is an object whose `__typename` is a string, and it returns that string; otherwise the `__typename` error, echoing the subtree |
| ResponseDecoder.GetId | AmplifyPlugins/API/AWSAPICategoryPlugin/Support/Decode/GraphQLResponseDecoder+DecodeData.swift:90-103 | success exactly when the subtree is an object whose `id` is a string, and it returns that string; otherwise the `id` error, echoing the subtree |
| ResponseDecoder.InjectPlaceholders | AmplifyPlugins/API/AWSAPICategoryPlugin/Support/Decode/GraphQLResponseDecoder+DecodeData.swift:55-70 | every key of the payload keeps its value, including keys that hold null; every expandable field ends up present; each added key is an expandable field holding exactly `{associatedId: id, associatedField: inverse name}` |
| ResponseDecoder.InjectIdempotent | AmplifyPlugins/API/AWSAPICategoryPlugin/Support/Decode/GraphQLResponseDecoder+DecodeData.swift:55-70 | injecting twice (even with another id) equals injecting once |
| ResponseDecoder.InjectKeepsCompletePayload | AmplifyPlugins/API/AWSAPICategoryPlugin/Support/Decode/GraphQLResponseDecoder+DecodeData.swift:61-68 | a payload that already holds every expandable field is left unchanged |
| ResponseDecoder.DecodeToModelWithConnections | AmplifyPlugins/API/AWSAPICategoryPlugin/Support/Decode/GraphQLResponseDecoder+DecodeData.swift:40-73 | a missing `__typename` fails whatever the registry holds; "no expansion" holds exactly when the name is unregistered or the schema has no array association; the `id` error happens exactly when the schema has an array association and the `id` is missing; past those checks the call succeeds exactly when the codec accepts the payload with its placeholders injected, and that payload is the result; the `__typename` error happens only when the name is missing |
| ResponseDecoder.DecodeToAppSyncList | AmplifyPlugins/API/AWSAPICategoryPlugin/Support/Decode/GraphQLResponseDecoder+DecodeData.swift:105-120 | the call succeeds exactly when the codec accepts the list payload; that payload carries the request's document, its variables exactly when the request has them, and the subtree; a failure is the Codable error |
| ResponseDecoder.DecodeToResponseType | AmplifyPlugins/API/AWSAPICategoryPlugin/Support/Decode/GraphQLResponseDecoder+DecodeData.swift:13-38 | an unresolved decode path fails with the path error; a `String` request succeeds exactly when the path resolves and gets the subtree's text; every other request whose subtree the codec rejects fails with the Codable error; on success a value that decodes to a model (a `Model` type, or an optional one whose subtree is not null) is a model with a `__typename`, one that decodes to a list is a payload over the subtree, and an `AnyModel` request gets the subtree; any other decoded value, including the `nil` of an optional type, succeeds exactly when the codec accepts the subtree and is that subtree |
| ResponseDecoder.ModelNeedsTypename | AmplifyPlugins/API/AWSAPICategoryPlugin/Support/Decode/GraphQLResponseDecoder+DecodeData.swift:28-41 | every response that decodes to a model, with a successful Codable decode but no string `__typename`, fails with that error, whatever the registry |
| ResponseDecoder.UnexpandedModelFallsBack | AmplifyPlugins/API/AWSAPICategoryPlugin/Support/Decode/GraphQLResponseDecoder+DecodeData.swift:31-50 | with nothing to expand, the model is the decoded subtree unchanged and no error is raised, even without an `id` |
| ResponseDecoder.ExpandedModel | AmplifyPlugins/API/AWSAPICategoryPlugin/Support/Decode/GraphQLResponseDecoder+DecodeData.swift:31-72 | for a `Model` or non-null optional-model response with a registered schema that has an array association and a string `id`, the model is the payload with its placeholders |
| ResponseDecoder.ListResponse | AmplifyPlugins/API/AWSAPICategoryPlugin/Support/Decode/GraphQLResponseDecoder+DecodeData.swift:28-34 | a response that decodes to a list is the payload built from the request's document and variables and the subtree |
| ResponseDecoder.NullOptionalIsNil | AmplifyPlugins/API/AWSAPICategoryPlugin/Support/Decode/GraphQLResponseDecoder+DecodeData.swift:29-36 | a null subtree of an optional model or list type decodes to `nil`, which is neither a model nor a list, so it is returned as decoded and no `__typename` is read |
| ResponseDecoder.DecodeToStringExample | AmplifyPlugins/API/AWSAPICategoryPluginTests/Support/Decode/GraphQLResponseDecoderTests.swift:46-61 | `data.getSimpleModel` over the test envelope yields the text of `{"id": "id"}` |
| ResponseDecoder.DecodeToModelWithoutTypenameFails | AmplifyPlugins/API/AWSAPICategoryPluginTests/Support/Decode/GraphQLResponseDecoderTests.swift:89-105 | the test's model payload without `__typename` fails with the `__typename` error for every registry |
| ResponseDecoder.PostV2Expands | AmplifyTestCommon/Models/ConnectionsV2/PostV2+Schema.swift:29-34 | `comments` is the only `PostV2` field that expands, and its inverse is `postID` |
| ResponseDecoder.PostV2Injection | AmplifyTestCommon/Models/ConnectionsV2/PostV2+Schema.swift:33 | a `PostV2` payload without `comments` gains exactly `comments = {associatedId: "postId123", associatedField: "postID"}` |
| ResponseDecoder.DecodePostV2Example | AmplifyPlugins/API/AWSAPICategoryPluginTests/Support/Decode/GraphQLResponseDecoderTests.swift:138-177 | the `PostV2` version of that test (its `Post` payload with `__typename: "Post"` and inverse `post` is replaced by the `PostV2` fixture, whose inverse is `postID`): decoding a post without comments, as `PostV2` or as `PostV2?`, yields it with the placeholder pointing at its id |
| ResponseDecoder.DeletedPostV2GetIsNil | AmplifyPlugins/API/AWSAPICategoryPluginFunctionalTests/GraphQLConnectionV2Tests/GraphQLConnectionV2Tests.swift:224-236 | `.get(PostV2.self, byId:)` on a deleted post, answered with `getPostV2: null`, succeeds with `nil` while the connection registry is in place |
| ResponseDecoder.DecodeToModelListExample | AmplifyPlugins/API/AWSAPICategoryPluginTests/Support/Decode/GraphQLResponseDecoderTests.swift:107-135 | the two-item page with `nextToken123` is handed on whole, with the request's document and no variables |
| Schema.PostV2SchemaWellFormed | AmplifyTestCommon/Models/ConnectionsV2/PostV2+Schema.swift:29-34 | every field of the `PostV2` fixture is stored under its own name |
| Schema.CommentV2SchemaWellFormed | AmplifyTestCommon/Models/ConnectionsV2/CommentV2+Schema.swift:28-32 | every field of the `CommentV2` fixture is stored under its own name |
| Schema.PostCommentV2RegistryWellFormed | AmplifyTestCommon/Models/ConnectionsV2/PostCommentV2ModelRegistration.swift:12-15 | the registry holding the two registered models, `PostV2` and `CommentV2`, stores each field of each schema under its own name |
| LazyLoad.QueryFieldName | AmplifyPlugins/DataStore/AWSDataStoreCategoryPlugin/Core/DataStoreList+LazyLoad.swift:33-37 | a `belongsTo` target name wins; otherwise the name is `camelCased(model) + pascalCased(field) + "Id"` |
| LazyLoad.LazyLoadQuery | AmplifyPlugins/DataStore/AWSDataStoreCategoryPlugin/Core/DataStoreList+LazyLoad.swift:24-39 | a query is issued exactly when both `associatedId` and `associatedField` are present, and it is the equality of the resolved field name with `associatedId` |
| LazyLoad.LazyLoad | AmplifyPlugins/DataStore/AWSDataStoreCategoryPlugin/Core/DataStoreList+LazyLoad.swift:22-50 | without an association the completion gets the current elements and nothing changes; on query success the elements are replaced, the state becomes `loaded` and the completion gets the same elements; on failure the completion gets the wrapped error and the list is unchanged |
| LazyLoad.LoadIfNeeded | AmplifyPlugins/DataStore/AWSDataStoreCategoryPlugin/Core/DataStoreList+LazyLoad.swift:52-76 | a loaded list issues no query and is unchanged; a pending list issues the lazy-load query, and when it has no association to query the list is stored back unchanged; the blocking load is fatal exactly when the query is issued and fails |
| LazyLoad.LoadIfNeededSettles | AmplifyPlugins/DataStore/AWSDataStoreCategoryPlugin/Core/DataStoreList+LazyLoad.swift:54-58 | once `loadIfNeeded` has returned, a second call issues no query and changes nothing, whatever the query would answer |
| LazyLoad.FailedLoadIsRetryable | AmplifyPlugins/DataStore/AWSDataStoreCategoryPlugin/Core/DataStoreList+LazyLoad.swift:46-47 | after a failed load the list loads exactly as it would have before the failure |
| LazyLoad.Comment6QueryField | AmplifyTestCommon/Models/Collection/6/Comment6+Schema.swift:23 | a list resolved through `Comment6.post` queries `postID == <parent id>` whatever the casing helpers return |
| QuerySortGraphQL.GraphQLSortOf | AmplifyPlugins/Core/AWSPluginsCore/Model/Support/QuerySortBy+GraphQL.swift:13-20 | the result has exactly the keys `field` and `direction`; `field` is the field's string value; `direction` is `desc` for descending and `asc` for ascending |
| QuerySortGraphQL.SortRoundTrip | AmplifyPlugins/Core/AWSPluginsCore/Model/Support/QuerySortBy+GraphQL.swift:13-20 | every sort order is read back unchanged from its GraphQL form |
| QuerySortGraphQL.SortFormUnique | AmplifyPlugins/Core/AWSPluginsCore/Model/Support/QuerySortBy+GraphQL.swift:13-20 | any map that reads back as a sort order is that order's GraphQL form |
| QuerySortGraphQL.DirectionOnlyDifference | AmplifyPlugins/Core/AWSPluginsCore/Model/Support/QuerySortBy+GraphQL.swift:15-18 | ascending and descending on one field differ only in `direction` |
| FilterDecorator.Decorate | AmplifyPlugins/Core/AWSPluginsCore/Model/Decorator/FilterDecorator.swift:23-41 | a mutation gets `condition` of type `Model<name>ConditionInput`; a search query gets `filter` of type `Searchable<name>FilterInput`; any other query gets `filter` of type `Model<name>FilterInput`; each value is the filter object unchanged; a subscription comes back unchanged; every other input key keeps its value and no other key is added |
| FilterDecorator.DecorateIdempotent | AmplifyPlugins/Core/AWSPluginsCore/Model/Decorator/FilterDecorator.swift:23-41 | decorating twice with the same filter equals decorating once |
| FilterDecorator.LastFilterWins | AmplifyPlugins/Core/AWSPluginsCore/Model/Decorator/FilterDecorator.swift:28-36 | a second filter replaces the first |
| FilterDecorator.InputTypesIdentifyModel | AmplifyPlugins/Core/AWSPluginsCore/Model/Decorator/FilterDecorator.swift:28-35 | distinct model names give distinct input type names, and the condition, filter and searchable-filter names never coincide |
| SortDecorator.Decorate | AmplifyPlugins/Core/AWSPluginsCore/Model/Decorator/SortDecorator.swift:20-29 | the `sort` input exists with type `Searchable<name>SortInput` and holds `graphQLSort` of the sort order; every other input key keeps its value and no other key is added |
| SortDecorator.SortValueShape | AmplifyPlugins/Core/AWSPluginsCore/Model/Decorator/SortDecorator.swift:25-26 | the stored object is exactly `{field, direction}` as strings |
| SortDecorator.IgnoresOperationType | AmplifyPlugins/Core/AWSPluginsCore/Model/Decorator/SortDecorator.swift:20-29 | the inputs written do not depend on the document's operation type |
| SortDecorator.LastSortWins | AmplifyPlugins/Core/AWSPluginsCore/Model/Decorator/SortDecorator.swift:25 | an existing `sort` input is overwritten, and decorating twice with one order equals decorating once |
| SortDecorator.CommutesWithFilter | AmplifyPlugins/Core/AWSPluginsCore/Model/Decorator/SortDecorator.swift:25 | filter and sort decoration can be applied in either order |

## Left out

- **JSON parsing and serialization.** Foundation's `JSONDecoder` is not modelled. Parsing is an input, `Option<JSON>`. The text of a `String` response is described by the subtree it serializes, because key order depends on the encoder.
- **JSON numbers.** A number is a `real`, so the NaN and infinite `Double` values on which the encoder would throw do not exist here.
- **Codable round trips.** `AnyModel(modelJSON:)`, the date strategies and the `JSONSerialization` of request variables are not modelled. Their success is the `Codec` parameter, and request variables are already JSON.
- **Unseen helpers.** `JSONValue.value(at:)` is not part of this model. It is written as a split on `.` followed by a walk over object keys.
- **Case helpers.** `camelCased` and `pascalCased` are not part of this model. They are the `Casing` parameter.
- **Document copy.** `document.copy(inputs:)` is not part of this model. It is taken to keep everything but the inputs.
- **Query type enum.** `GraphQLQueryType` is not part of this model. Its cases other than `search` are named as the API uses them, and only `search` matters here.
- **AppSyncList internals.** `hasNextPage`, `getNextPage` and `fetch` are not part of this model, because their source is not part of it.
- **The blocking `lazyLoad()`.** Its semaphore is not modelled. `LoadIfNeeded` reports the error on which it would call `fatalError`, and process termination is not modelled.
- **Global state and backend calls.** `Amplify.DataStore.query`, `ModelRegistry` and `ModelListDecoderRegistry` are not called. The query's answer and the registry are parameters.
- **Schema well-formedness.** Decoding requires every registered schema to store each field under its own name, as the schema's field dictionary does.
- **Live-backend tests.** The functional connection tests need a live backend. Only the decode of the deleted-post answer is modelled, as `ResponseDecoder.DeletedPostV2GetIsNil`; the mutations, subscriptions and paging around it are not.
- **Response types beyond one optional.** The response type is described by its `ResponseKind`. Nested optionals (`M??`) and other wrappers that Swift's `is` would look through are not modelled.
- **Underlying parse error.** When the envelope cannot be parsed, the source's `operationError` carries the parser's error as its third value. The model has no such error value, so `AppSyncResponse.CouldNotDeserialize` holds `None` there; only the description and recovery suggestion are kept.
- **String equality.** Swift compares `String` values and dictionary keys by canonical equivalence. Here strings are sequences of characters compared code unit by code unit. The two agree on the ASCII names GraphQL uses.
- **Generated code.** The generated model structs serve only as fixture data. The dev-menu code is unrelated.

=== FILE: api_error.dfy ===
/** The failures this core reports. */
module ApiErrors {
  import opened Wrappers
  import opened Json

  /** `OperationError` and `Unknown` are the two cases of Amplify's `APIError`
      raised here, with their description and recovery suggestion. Where the
      source interpolates the offending JSON object at the end of the recovery
      suggestion, `recoverySuggestion` holds the fixed text and `echoed` the
      object; otherwise `echoed` is `None`, which also stands for the parser
      error the source attaches when the envelope cannot be parsed.
      `CodingError` is an error thrown by Foundation's JSON coders, which the
      source lets through unchanged. */
  datatype APIError =
    | OperationError(errorDescription: string, recoverySuggestion: string, echoed: Option<JSON>)
    | Unknown(errorDescription: string, recoverySuggestion: string)
    | CodingError

  const ServiceIssue: string := "Service issue"
}

=== FILE: appsync_response.dfy ===
/** `AWSAppSyncGraphQLResponse`: sorts the top-level GraphQL envelope
    `{"data": ..., "errors": [...]}` into data, errors, partial or invalid. */
module AppSyncResponse {
  import opened Wrappers
  import opened Json
  import opened ApiErrors

  datatype GraphQLResponse =
    | Data(graphQLData: map<string, JSON>)
    | Errors(graphQLErrors: seq<JSON>)
    | Partial(graphQLData: map<string, JSON>, graphQLErrors: seq<JSON>)
    | InvalidResponse

  const CouldNotDeserialize: APIError :=
    OperationError("Could not deserialize response data", ServiceIssue, None)
  const NotAnObject: APIError :=
    Unknown("Deserialized response data is not an object", ServiceIssue)
  const ErrorsNotArray: APIError :=
    Unknown("Deserialized response error is not an array", ServiceIssue)
  const DataNotObjectOrNull: APIError :=
    Unknown("Failed to get object or null from data.", ServiceIssue)

  // Shapes of the envelope, stated on the raw top-level object.

  /** `errors` is present but is not an array. */
  predicate ErrorsMalformed(obj: map<string, JSON>) {
    "errors" in obj && !obj["errors"].JArray?
  }

  /** `data` is present but is neither an object nor null. */
  predicate DataMalformed(obj: map<string, JSON>) {
    "data" in obj && !obj["data"].JObject? && obj["data"] != JNull
  }

  /** No usable `data`: the key is missing or holds null. */
  predicate DataAbsent(obj: map<string, JSON>) {
    "data" !in obj || obj["data"] == JNull
  }

  predicate HasDataObject(obj: map<string, JSON>) {
    "data" in obj && obj["data"].JObject?
  }

  predicate HasErrorsArray(obj: map<string, JSON>) {
    "errors" in obj && obj["errors"].JArray?
  }

  /** `deserializeObject`. `parsed` is what Foundation's JSON decoder made of the
      response bytes, `None` when they were not JSON. */
  function DeserializeObject(parsed: Option<JSON>): Result<map<string, JSON>, APIError>
  {
    match parsed
    case None => Failure(CouldNotDeserialize)
    case Some(JObject(obj)) => Success(obj)
    case Some(_) => Failure(NotAnObject)
  }

  /** `getAPIErrors`: the `errors` array, if the key is present. */
  function GetAPIErrors(obj: map<string, JSON>): Result<Option<seq<JSON>>, APIError>
  {
    if "errors" !in obj then Success(None)
    else
      match obj["errors"]
      case JArray(errors) => Success(Some(errors))
      case _ => Failure(ErrorsNotArray)
  }

  /** `getGraphQLData`: the `data` object; a null `data` counts as missing. */
  function GetGraphQLData(obj: map<string, JSON>): Result<Option<map<string, JSON>>, APIError>
  {
    if "data" !in obj then Success(None)
    else
      match obj["data"]
      case JObject(data) => Success(Some(data))
      case JNull => Success(None)
      case _ => Failure(DataNotObjectOrNull)
  }

  /** Classification of a top-level object: errors are inspected first, then
      data, then the pair picks the case. */
  function Classify(obj: map<string, JSON>): (r: Result<GraphQLResponse, APIError>)
    ensures ErrorsMalformed(obj) ==> r == Failure(ErrorsNotArray)
    ensures !ErrorsMalformed(obj) && DataMalformed(obj) ==> r == Failure(DataNotObjectOrNull)
    ensures r.Failure? <==> ErrorsMalformed(obj) || DataMalformed(obj)
    ensures r == Success(InvalidResponse) <==> DataAbsent(obj) && "errors" !in obj
    ensures r.Success? && r.value.Data? <==> HasDataObject(obj) && "errors" !in obj
    ensures r.Success? && r.value.Errors? <==> DataAbsent(obj) && HasErrorsArray(obj)
    ensures r.Success? && r.value.Partial? <==> HasDataObject(obj) && HasErrorsArray(obj)
    ensures r.Success? && (r.value.Data? || r.value.Partial?) ==>
              r.value.graphQLData == obj["data"].fields
    ensures r.Success? && (r.value.Errors? || r.value.Partial?) ==>
              r.value.graphQLErrors == obj["errors"].items
  {
    var errors :- GetAPIErrors(obj);
    var data :- GetGraphQLData(obj);
    match (data, errors)
    case (None, None) => Success(InvalidResponse)
    case (Some(d), None) => Success(Data(d))
    case (None, Some(e)) => Success(Errors(e))
    case (Some(d), Some(e)) => Success(Partial(d, e))
  }

  /** `decodeToAWSAppSyncGraphQLResponse`. */
  function DecodeToAWSAppSyncGraphQLResponse(parsed: Option<JSON>): (r: Result<GraphQLResponse, APIError>)
    ensures parsed.None? ==> r == Failure(CouldNotDeserialize)
    ensures parsed.Some? && !parsed.value.JObject? ==> r == Failure(NotAnObject)
    ensures parsed.Some? && parsed.value.JObject? ==> r == Classify(parsed.value.fields)
  {
    var obj :- DeserializeObject(parsed);
    Classify(obj)
  }

  /** The envelope a response is read from: the inverse of classification. */
  function ToEnvelope(response: GraphQLResponse): JSON
  {
    match response
    case InvalidResponse => JObject(map[])
    case Data(d) => JObject(map["data" := JObject(d)])
    case Errors(e) => JObject(map["errors" := JArray(e)])
    case Partial(d, e) => JObject(map["data" := JObject(d), "errors" := JArray(e)])
  }

  /** Every response, including one with an empty errors list, is recovered from
      its envelope unchanged. */
  lemma EnvelopeRoundTrip(response: GraphQLResponse)
    ensures DecodeToAWSAppSyncGraphQLResponse(Some(ToEnvelope(response))) == Success(response)
  {
  }

  /** Only `data` and `errors` matter: other top-level keys (`extensions`, say)
      never change the classification. */
  lemma OtherKeysIgnored(obj: map<string, JSON>, key: string, v: JSON)
    requires key != "data" && key != "errors"
    ensures Classify(obj[key := v]) == Classify(obj)
  {
  }

  /** A successful classification is recovered from its own envelope, with an
      explicit null `data` read as no data. */
  lemma ClassifyIsCanonical(obj: map<string, JSON>)
    requires Classify(obj).Success?
    ensures Classify(ToEnvelope(Classify(obj).value).fields) == Classify(obj)
  {
  }
}

=== FILE: filter_decorator.dfy ===
/** `FilterDecorator`: adds a `condition` input to a mutation or a `filter`
    input to a query; other operations are left as they are. */
module FilterDecorator {
  import opened Wrappers
  import opened Json
  import opened GraphQLDocument

  /** `GraphQLQueryType`; only `search` changes the filter's input type. */
  datatype QueryType = Get | List | Sync | Search

  /** `GraphQLFilter`. */
  type GraphQLFilter = map<string, JSON>

  function ConditionInputType(modelName: string): string {
    "Model" + modelName + "ConditionInput"
  }

  function SearchableFilterInputType(modelName: string): string {
    "Searchable" + modelName + "FilterInput"
  }

  function FilterInputType(modelName: string): string {
    "Model" + modelName + "FilterInput"
  }

  /** The input key the decorator writes for an operation type, if any. */
  function FilterKey(operationType: OperationType): Option<string> {
    match operationType
    case Mutation => Some("condition")
    case Query => Some("filter")
    case Subscription => None
  }

  function Decorate(filter: GraphQLFilter, queryType: Option<QueryType>, document: Document, modelName: string)
    : (r: Document)
    ensures r.operationType == document.operationType && r.name == document.name
    ensures document.operationType == Mutation ==>
              && "condition" in r.inputs
              && r.inputs["condition"] == DocumentInput(ConditionInputType(modelName), ObjectValue(filter))
    ensures document.operationType == Query && queryType == Some(Search) ==>
              && "filter" in r.inputs
              && r.inputs["filter"] == DocumentInput(SearchableFilterInputType(modelName), ObjectValue(filter))
    ensures document.operationType == Query && queryType != Some(Search) ==>
              && "filter" in r.inputs
              && r.inputs["filter"] == DocumentInput(FilterInputType(modelName), ObjectValue(filter))
    ensures document.operationType == Subscription ==> r == document
    ensures forall k | k in document.inputs && Some(k) != FilterKey(document.operationType) ::
              k in r.inputs && r.inputs[k] == document.inputs[k]
    ensures forall k | k in r.inputs && Some(k) != FilterKey(document.operationType) :: k in document.inputs
  {
    var inputs := document.inputs;
    if document.operationType == Mutation then
      CopyInputs(document, inputs["condition" := DocumentInput(ConditionInputType(modelName), ObjectValue(filter))])
    else if document.operationType == Query then
      if queryType.Some? && queryType.value == Search then
        CopyInputs(document, inputs["filter" := DocumentInput(SearchableFilterInputType(modelName), ObjectValue(filter))])
      else
        CopyInputs(document, inputs["filter" := DocumentInput(FilterInputType(modelName), ObjectValue(filter))])
    else
      CopyInputs(document, inputs)
  }

  /** Decorating twice with the same filter is decorating once. */
  lemma DecorateIdempotent(filter: GraphQLFilter, queryType: Option<QueryType>, document: Document, modelName: string)
    ensures Decorate(filter, queryType, Decorate(filter, queryType, document, modelName), modelName)
            == Decorate(filter, queryType, document, modelName)
  {
  }

  /** A later filter replaces an earlier one. */
  lemma LastFilterWins(first: GraphQLFilter, second: GraphQLFilter, queryType: Option<QueryType>,
                       document: Document, modelName: string)
    ensures Decorate(second, queryType, Decorate(first, queryType, document, modelName), modelName)
            == Decorate(second, queryType, document, modelName)
  {
  }

  /** The input type names identify the model: two models never share one, and
      the three families never overlap. */
  lemma InputTypesIdentifyModel(a: string, b: string)
    ensures ConditionInputType(a) == ConditionInputType(b) ==> a == b
    ensures FilterInputType(a) == FilterInputType(b) ==> a == b
    ensures SearchableFilterInputType(a) == SearchableFilterInputType(b) ==> a == b
    ensures ConditionInputType(a) != FilterInputType(b)
    ensures SearchableFilterInputType(a) != FilterInputType(b)
    ensures ConditionInputType(a) != SearchableFilterInputType(b)
  {
    if ConditionInputType(a) == ConditionInputType(b) {
      MiddleCancels("Model", a, b, "ConditionInput");
    }
    if FilterInputType(a) == FilterInputType(b) {
      MiddleCancels("Model", a, b, "FilterInput");
    }
    if SearchableFilterInputType(a) == SearchableFilterInputType(b) {
      MiddleCancels("Searchable", a, b, "FilterInput");
    }
    var s := SearchableFilterInputType(a);
    var f := FilterInputType(b);
    assert s[0] == 'S' && f[0] == 'M';
    // The letter before "Input" tells "ConditionInput" from "FilterInput".
    var c := ConditionInputType(a);
    SuffixAt("Model" + a, "ConditionInput", 8);
    SuffixAt("Model" + b, "FilterInput", 5);
    assert c[|c| - 6] == 'n' && f[|f| - 6] == 'r';
    assert c[0] == 'M' && SearchableFilterInputType(b)[0] == 'S';
  }

  /** Equal strings with the same prefix and suffix have the same middle. */
  lemma MiddleCancels(prefix: string, a: string, b: string, suffix: string)
    requires prefix + a + suffix == prefix + b + suffix
    ensures a == b
  {
    var x := prefix + a + suffix;
    var y := prefix + b + suffix;
    assert |a| == |b|;
    forall i | 0 <= i < |a| ensures a[i] == b[i] {
      assert x[|prefix| + i] == a[i];
      assert y[|prefix| + i] == b[i];
    }
  }

  /** Indexing into the suffix of a concatenation. */
  lemma SuffixAt(head: string, suffix: string, j: nat)
    requires j < |suffix|
    ensures (head + suffix)[|head| + j] == suffix[j]
  {
  }
}

=== FILE: graphql_document.dfy ===
/** The part of `SingleDirectiveGraphQLDocument` the model-based decorators
    touch: the operation type and the named inputs. */
module GraphQLDocument {
  import opened Json

  datatype OperationType = Query | Mutation | Subscription

  /** `GraphQLDocumentInputValue`: only object values are written here. */
  datatype InputValue = ObjectValue(fields: map<string, JSON>) | ScalarValue(scalar: JSON)

  /** `GraphQLDocumentInput`: the GraphQL input type name and the value. */
  datatype DocumentInput = DocumentInput(typeName: string, value: InputValue)

  datatype Document = Document(operationType: OperationType, name: string, inputs: map<string, DocumentInput>)

  /** `document.copy(inputs:)`: the same document with other inputs. */
  function CopyInputs(document: Document, inputs: map<string, DocumentInput>): Document {
    document.(inputs := inputs)
  }

  /** The two documents agree on every input key except `key`. */
  predicate SameInputsExcept(a: Document, b: Document, key: string) {
    && (forall k | k in a.inputs && k != key :: k in b.inputs && b.inputs[k] == a.inputs[k])
    && (forall k | k in b.inputs && k != key :: k in a.inputs)
  }
}

=== FILE: json.dfy ===
/** Amplify's `JSONValue`: a JSON tree with keyed access and dot-path lookup. */
module Json {
  import opened Wrappers

  /** Numbers carry a `real`: NaN and infinities (which Swift's `Double` allows)
      are not modelled. Objects are unordered maps, as Swift dictionaries are. */
  datatype JSON =
    | JNull
    | JBool(b: bool)
    | JNumber(n: real)
    | JString(s: string)
    | JArray(items: seq<JSON>)
    | JObject(fields: map<string, JSON>)

  /** The separator of a decode path such as `data.getPost`. */
  const PathSeparator: char := '.'

  /** The subscript `json[key]`: a value only when `j` is an object holding `key`.
      A key bound to `JNull` is present, so the result is `Some(JNull)`. */
  function Member(j: JSON, key: string): Option<JSON>
  {
    match j
    case JObject(m) => if key in m then Some(m[key]) else None
    case _ => None
  }

  /** The string held at `key`, if `j` is an object whose `key` is a string. */
  function StringMember(j: JSON, key: string): Option<string>
  {
    match Member(j, key)
    case Some(JString(s)) => Some(s)
    case _ => None
  }

  /** Walks the keys in order through nested objects. */
  function ValueAt(j: JSON, keys: seq<string>): Option<JSON>
    decreases |keys|
  {
    if |keys| == 0 then Some(j)
    else
      match Member(j, keys[0])
      case None => None
      case Some(child) => ValueAt(child, keys[1..])
  }

  /** Concatenates the parts with `sep` between neighbours. */
  function Join(parts: seq<string>, sep: char): string
    requires |parts| >= 1
    decreases |parts|
  {
    if |parts| == 1 then parts[0] else parts[0] + [sep] + Join(parts[1..], sep)
  }

  /** `components(separatedBy:)`: the maximal `sep`-free pieces of `s`, in
      order. The empty string has one empty component, and every separator
      starts a new one, so the pieces always join back to `s`. */
  function Split(s: string, sep: char): (parts: seq<string>)
    ensures |parts| >= 1
    ensures forall i | 0 <= i < |parts| :: sep !in parts[i]
    ensures Join(parts, sep) == s
    decreases |s|
  {
    if |s| == 0 then [""]
    else
      var rest := Split(s[1..], sep);
      if s[0] == sep then
        assert Join([""] + rest, sep) == [sep] + Join(rest, sep) by {
          assert ([""] + rest)[1..] == rest;
        }
        [""] + rest
      else
        var parts := [[s[0]] + rest[0]] + rest[1..];
        assert parts[1..] == rest[1..];
        assert Join(parts, sep) == [s[0]] + Join(rest, sep) by {
          if |rest| > 1 {
            assert Join(rest, sep) == rest[0] + [sep] + Join(rest[1..], sep);
          }
        }
        assert s == [s[0]] + s[1..];
        parts
  }

  /** The path keys a dot-separated decode path names. */
  function PathKeys(path: string): seq<string>
  {
    Split(path, PathSeparator)
  }

  /** A lookup of a longer path is a lookup of the prefix followed by a lookup of
      the rest; in particular a prefix that does not resolve makes the whole
      path fail. */
  lemma {:induction false} ValueAtAppend(j: JSON, p: seq<string>, q: seq<string>)
    ensures ValueAt(j, p + q) ==
              (match ValueAt(j, p)
               case None => None
               case Some(v) => ValueAt(v, q))
    decreases |p|
  {
    if |p| == 0 {
      assert p + q == q;
    } else {
      assert (p + q)[0] == p[0];
      assert (p + q)[1..] == p[1..] + q;
      match Member(j, p[0])
      case None =>
      case Some(child) =>
        ValueAtAppend(child, p[1..], q);
    }
  }

  /** Splitting a separator-free prefix glued to any text keeps the prefix at the
      front of the first component. */
  lemma {:induction false} SplitFreePrefix(a: string, t: string, sep: char)
    requires sep !in a
    ensures Split(a + t, sep) == [a + Split(t, sep)[0]] + Split(t, sep)[1..]
    decreases |a|
  {
    if |a| == 0 {
      assert a + t == t;
      assert a + Split(t, sep)[0] == Split(t, sep)[0];
      assert Split(t, sep) == [Split(t, sep)[0]] + Split(t, sep)[1..];
    } else {
      assert (a + t)[0] == a[0];
      assert (a + t)[1..] == a[1..] + t;
      SplitFreePrefix(a[1..], t, sep);
      assert [a[0]] + (a[1..] + Split(t, sep)[0]) == a + Split(t, sep)[0];
    }
  }

  /** The converse round trip: separator-free parts survive a join and a split. */
  lemma {:induction false} SplitJoin(parts: seq<string>, sep: char)
    requires |parts| >= 1
    requires forall i | 0 <= i < |parts| :: sep !in parts[i]
    ensures Split(Join(parts, sep), sep) == parts
    decreases |parts|
  {
    if |parts| == 1 {
      SplitFreePrefix(parts[0], "", sep);
      assert parts[0] + "" == parts[0];
    } else {
      var tail := Join(parts[1..], sep);
      SplitJoin(parts[1..], sep);
      assert Join(parts, sep) == parts[0] + ([sep] + tail);
      SplitFreePrefix(parts[0], [sep] + tail, sep);
      assert ([sep] + tail)[1..] == tail;
      assert Split([sep] + tail, sep) == [""] + parts[1..];
      assert parts[0] + "" == parts[0];
      assert parts == [parts[0]] + parts[1..];
    }
  }
}

=== FILE: lazy_load.dfy ===
/** The lazy-load logic of DataStore's `List<ModelType>`: a list that stands for
    a relation loads its elements with one query, the first time they are
    needed. The DataStore query is not called here: its result is an input. */
module LazyLoad {
  import opened Wrappers
  import opened Schema

  /** Whether the elements have been fetched. */
  datatype LoadState = Pending | Loaded

  /** The list's state. `associatedId` is the parent's id and `associatedField`
      the inverse field on the element model; a list built from plain elements
      has neither. */
  datatype DataStoreList<E> = DataStoreList(
    elements: seq<E>,
    state: LoadState,
    associatedId: Option<string>,
    associatedField: Option<ModelField>)

  /** `field(name) == value`. */
  datatype QueryPredicate = FieldEquals(field: string, value: string)

  /** Amplify's `camelCased()` and `pascalCased()` string helpers. */
  datatype Casing = Casing(camelCased: string -> string, pascalCased: string -> string)

  /** `DataStoreResult.failure(causedBy:)`: the query's error, wrapped. */
  datatype DataStoreError<X> = CausedBy(underlying: X)

  /** One run of `lazyLoad(_ completion:)`: the list afterwards, the query it
      issued (if any), and what the completion received. */
  datatype LoadOutcome<E, X> = LoadOutcome(
    list: DataStoreList<E>,
    issued: Option<QueryPredicate>,
    completion: Result<seq<E>, DataStoreError<X>>)

  /** One run of `loadIfNeeded()`: the list afterwards, the query issued, and the
      error on which the blocking load ends the process with `fatalError`. */
  datatype BlockingOutcome<E, X> = BlockingOutcome(
    list: DataStoreList<E>,
    issued: Option<QueryPredicate>,
    fatal: Option<DataStoreError<X>>)

  /** True when the inverse field is a `belongsTo` that names its foreign key. */
  predicate HasTargetName(field: ModelField) {
    field.association.Some? && field.association.value.BelongsTo?
    && field.association.value.targetName.Some?
  }

  /** The name of the foreign-key field the query filters on:
      `camelCased(model) + pascalCased(field) + "Id"`, unless the inverse field
      is a `belongsTo` with a target name, which then wins. */
  function QueryFieldName(modelName: string, field: ModelField, casing: Casing): (name: string)
    ensures HasTargetName(field) ==> name == field.association.value.targetName.value
    ensures !HasTargetName(field) ==>
              name == casing.camelCased(modelName) + casing.pascalCased(field.name) + "Id"
  {
    var name := casing.camelCased(modelName) + casing.pascalCased(field.name) + "Id";
    match field.association
    case Some(BelongsTo(targetName)) =>
      (match targetName
       case Some(target) => target
       case None => name)
    case _ => name
  }

  /** The query `lazyLoad` issues: equality of the foreign key with the parent's
      id, or none when the list has no association. */
  function LazyLoadQuery<E>(list: DataStoreList<E>, modelName: string, casing: Casing): (q: Option<QueryPredicate>)
    ensures q.Some? <==> list.associatedId.Some? && list.associatedField.Some?
    ensures q.Some? ==>
              q.value == FieldEquals(QueryFieldName(modelName, list.associatedField.value, casing),
                                     list.associatedId.value)
  {
    match (list.associatedId, list.associatedField)
    case (Some(id), Some(field)) => Some(FieldEquals(QueryFieldName(modelName, field, casing), id))
    case _ => None
  }

  /** `lazyLoad(_ completion:)`. `queryResult` is what the DataStore query
      answers, consulted only when a query is issued. Success replaces the
      elements and marks the list loaded; failure leaves the list as it was, so
      the load can be retried. */
  function LazyLoad<E, X>(list: DataStoreList<E>, modelName: string, casing: Casing,
                          queryResult: Result<seq<E>, X>): (r: LoadOutcome<E, X>)
    ensures r.issued == LazyLoadQuery(list, modelName, casing)
    ensures r.issued.None? ==> r.list == list && r.completion == Success(list.elements)
    ensures r.issued.Some? && queryResult.Success? ==>
              && r.list == list.(elements := queryResult.value, state := Loaded)
              && r.completion == Success(queryResult.value)
    ensures r.issued.Some? && queryResult.Failure? ==>
              r.list == list && r.completion == Failure(CausedBy(queryResult.error))
    ensures r.completion.Success? ==> r.completion.value == r.list.elements
    ensures r.list.associatedId == list.associatedId && r.list.associatedField == list.associatedField
  {
    match LazyLoadQuery(list, modelName, casing)
    case None => LoadOutcome(list, None, Success(list.elements))
    case Some(query) =>
      match queryResult
      case Success(elements) =>
        LoadOutcome(list.(elements := elements, state := Loaded), Some(query), Success(elements))
      case Failure(error) =>
        LoadOutcome(list, Some(query), Failure(CausedBy(error)))
  }

  /** `loadIfNeeded()`: runs the blocking load unless the list is loaded. The
      blocking load stores the elements it received and treats a failure as
      fatal. */
  function LoadIfNeeded<E, X>(list: DataStoreList<E>, modelName: string, casing: Casing,
                              queryResult: Result<seq<E>, X>): (r: BlockingOutcome<E, X>)
    ensures list.state == Loaded ==> r == BlockingOutcome(list, None, None)
    ensures list.state == Pending ==> r.issued == LazyLoadQuery(list, modelName, casing)
    ensures r.fatal.Some? <==>
              list.state == Pending && LazyLoadQuery(list, modelName, casing).Some? && queryResult.Failure?
    ensures r.fatal.Some? ==> r.fatal.value == CausedBy(queryResult.error) && r.list == list
    ensures r.issued.None? ==> r.list == list && r.fatal.None?
    ensures r.issued.Some? && r.fatal.None? ==>
              r.list == list.(elements := queryResult.value, state := Loaded)
  {
    if list.state != Loaded then
      var outcome := LazyLoad(list, modelName, casing, queryResult);
      match outcome.completion
      case Success(elements) => BlockingOutcome(outcome.list.(elements := elements), outcome.issued, None)
      case Failure(error) =>
        assert list.state == Pending && outcome.issued.Some? && queryResult.Failure?;
        assert LazyLoadQuery(list, modelName, casing).Some?;
        BlockingOutcome(outcome.list, outcome.issued, Some(error))
    else
      BlockingOutcome(list, None, None)
  }

  /** Once `loadIfNeeded` has returned, calling it again issues no query and
      changes nothing, whatever the query would answer. */
  lemma LoadIfNeededSettles<E, X>(list: DataStoreList<E>, modelName: string, casing: Casing,
                                  first: Result<seq<E>, X>, second: Result<seq<E>, X>)
    requires LoadIfNeeded(list, modelName, casing, first).fatal.None?
    ensures var settled := LoadIfNeeded(list, modelName, casing, first).list;
            LoadIfNeeded(settled, modelName, casing, second) == BlockingOutcome(settled, None, None)
  {
  }

  /** A failed load can be retried: the list after the failure loads exactly as
      the original would have. */
  lemma FailedLoadIsRetryable<E, X>(list: DataStoreList<E>, modelName: string, casing: Casing,
                                    error: X, retry: Result<seq<E>, X>)
    ensures var failed := LazyLoad(list, modelName, casing, Failure(error)).list;
            LazyLoad(failed, modelName, casing, retry) == LazyLoad(list, modelName, casing, retry)
  {
  }

  /** The relation `Post6.comments` resolves through `Comment6.post`, whose
      target name `postID` replaces the derived name whatever the casing helpers
      return. */
  lemma Comment6QueryField(casing: Casing, postId: string)
    ensures var list: DataStoreList<int> := DataStoreList([], Pending, Some(postId), Some(Comment6PostField()));
            LazyLoadQuery(list, "Comment6", casing) == Some(FieldEquals("postID", postId))
  {
  }
}

=== FILE: query_sort.dfy ===
/** `QuerySortBy.graphQLSort`: a sort order as the `{field, direction}` object
    AppSync expects. */
module QuerySortGraphQL {
  import opened Wrappers

  /** `QuerySortBy`; the field is the coding key's `stringValue`. */
  datatype QuerySortBy = Ascending(field: string) | Descending(field: string)

  type GraphQLSort = map<string, string>

  function GraphQLSortOf(sortBy: QuerySortBy): (r: GraphQLSort)
    ensures r.Keys == {"field", "direction"}
    ensures r["field"] == sortBy.field
    ensures r["direction"] == (if sortBy.Descending? then "desc" else "asc")
  {
    match sortBy
    case Descending(field) => map["field" := field, "direction" := "desc"]
    case Ascending(field) => map["field" := field, "direction" := "asc"]
  }

  /** Reads a sort order back from its GraphQL form. */
  function SortByOf(sort: GraphQLSort): Option<QuerySortBy> {
    if sort.Keys != {"field", "direction"} then None
    else if sort["direction"] == "desc" then Some(Descending(sort["field"]))
    else if sort["direction"] == "asc" then Some(Ascending(sort["field"]))
    else None
  }

  /** The GraphQL form loses nothing: every sort order is read back unchanged. */
  lemma SortRoundTrip(sortBy: QuerySortBy)
    ensures SortByOf(GraphQLSortOf(sortBy)) == Some(sortBy)
  {
  }

  /** Conversely, every map that reads back as a sort order is the GraphQL form
      of that order, so the form is the only representation. */
  lemma SortFormUnique(sort: GraphQLSort)
    requires SortByOf(sort).Some?
    ensures GraphQLSortOf(SortByOf(sort).value) == sort
  {
    var r := GraphQLSortOf(SortByOf(sort).value);
    assert r.Keys == sort.Keys;
  }

  /** Ascending and descending on one field differ in `direction` alone. */
  lemma DirectionOnlyDifference(field: string)
    ensures GraphQLSortOf(Ascending(field))["direction" := "desc"] == GraphQLSortOf(Descending(field))
    ensures GraphQLSortOf(Ascending(field)) != GraphQLSortOf(Descending(field))
  {
    assert GraphQLSortOf(Ascending(field))["direction"] != GraphQLSortOf(Descending(field))["direction"];
  }
}

=== FILE: response_decoder.dfy ===
/** `GraphQLResponseDecoder`: projects the `data` object of a GraphQL response
    onto the shape the request asks for, and expands to-many relations the
    response left out into association placeholders that a lazy list resolves
    later.

    Foundation's Codable round trip (encode to bytes, decode as the response
    type) is a parameter, `Codec`: this model describes the JSON handed to that
    decoder, and a `false` answer from the codec is the error it throws. */
module ResponseDecoder {
  import opened Wrappers
  import opened Json
  import opened ApiErrors
  import opened Schema

  /** The response type `R` of a request: `String`, `AnyModel`, a type
      conforming to `Model`, a type conforming to `ModelListMarker` (a
      `List<M>`), the optional forms `M?` and `List<M>?` of those two (`AnyModel?`
      among them), or any other `Decodable`. Only `String` and `AnyModel` are
      recognised by the type itself; every other branch is chosen by what the
      decoded value turns out to be (see `DecodesToModel`). */
  datatype ResponseKind =
    | StringResponse
    | AnyModelResponse
    | ModelResponse
    | ModelListResponse
    | OptionalModelResponse
    | OptionalModelListResponse
    | OtherResponse

  /** `responseData is Model`: the decoded value is a model. A value of an
      optional model type is one unless it is `nil`, which is what JSON null
      decodes to. */
  predicate DecodesToModel(kind: ResponseKind, subtree: JSON) {
    kind == ModelResponse || (kind == OptionalModelResponse && !subtree.JNull?)
  }

  /** `responseData is ModelListMarker`, with the same reading of `nil`. */
  predicate DecodesToList(kind: ResponseKind, subtree: JSON) {
    kind == ModelListResponse || (kind == OptionalModelListResponse && !subtree.JNull?)
  }

  /** The parts of a `GraphQLOperationRequest` the decoder reads. */
  datatype Request = Request(
    document: string,
    variables: Option<map<string, JSON>>,
    responseKind: ResponseKind,
    decodePath: Option<string>)

  /** `AppSyncListPayload`: what a paginated list is decoded from. */
  datatype ListPayload = ListPayload(
    document: string,
    variables: Option<map<string, JSON>>,
    graphQLData: JSON)

  /** Whether Foundation's coders turn a JSON value (or a list payload) into a
      value of the request's response type. */
  datatype Codec = Codec(decodes: JSON -> bool, decodesList: ListPayload -> bool)

  /** What a successful decode hands back, described by the JSON it is built
      from: the text of a serialized subtree, a type-erased model, a model (with
      any association placeholders already injected), a list built from a
      payload, or any other decoded value. */
  datatype Decoded =
    | Text(subtree: JSON)
    | AnyModelValue(subtree: JSON)
    | ModelValue(json: JSON)
    | ListValue(payload: ListPayload)
    | PlainValue(json: JSON)

  const DecodePathMessage: string := "Could not retrieve object, given decode path: "
  const TypenameMessage: string := "Could not retrieve __typename from object"
  const TypenameRecovery: string :=
    "Could not retrieve the `__typename` attribute from the return value. Be sure to include __typename in "
    + "the selection set of the GraphQL operation. GraphQL:\n"
  const IdMessage: string := "Could not retrieve id from object"
  const IdRecovery: string :=
    "Could not retrieve the `id` attribute from the return value. Be sure to include `id` in "
    + "the selection set of the GraphQL operation. GraphQL:\n"

  function DecodePathError(path: string): APIError {
    OperationError(DecodePathMessage + path, "", None)
  }

  function MissingTypename(j: JSON): APIError {
    OperationError(TypenameMessage, TypenameRecovery, Some(j))
  }

  function MissingId(j: JSON): APIError {
    OperationError(IdMessage, IdRecovery, Some(j))
  }

  /** `valueAtDecodePath`: without a decode path the whole data object is the
      subtree; otherwise the path must resolve, and the error names it. */
  function ValueAtDecodePath(request: Request, data: JSON): (r: Result<JSON, APIError>)
    ensures request.decodePath.None? ==> r == Success(data)
    ensures request.decodePath.Some? ==>
              (r.Success? <==> ValueAt(data, PathKeys(request.decodePath.value)).Some?)
    ensures r.Success? && request.decodePath.Some? ==>
              ValueAt(data, PathKeys(request.decodePath.value)) == Some(r.value)
    ensures r.Failure? ==>
              && request.decodePath.Some?
              && r.error == DecodePathError(request.decodePath.value)
              && var message := r.error.errorDescription;
                 var path := request.decodePath.value;
                 |path| <= |message| && message[|message| - |path|..] == path
  {
    match request.decodePath
    case None => Success(data)
    case Some(path) =>
      match ValueAt(data, PathKeys(path))
      case None =>
        var message := DecodePathMessage + path;
        assert message[|message| - |path|..] == path;
        Failure(DecodePathError(path))
      case Some(v) => Success(v)
  }

  /** `getModelName`: the `__typename` string of the subtree. */
  function GetModelName(j: JSON): (r: Result<string, APIError>)
    ensures r.Success? <==>
              j.JObject? && "__typename" in j.fields && j.fields["__typename"].JString?
    ensures r.Success? ==> r.value == j.fields["__typename"].s
    ensures r.Failure? ==> r.error == MissingTypename(j)
  {
    match StringMember(j, "__typename")
    case Some(name) => Success(name)
    case None => Failure(MissingTypename(j))
  }

  /** `getId`: the `id` string of the subtree. */
  function GetId(j: JSON): (r: Result<string, APIError>)
    ensures r.Success? <==> j.JObject? && "id" in j.fields && j.fields["id"].JString?
    ensures r.Success? ==> r.value == j.fields["id"].s
    ensures r.Failure? ==> r.error == MissingId(j)
  {
    match StringMember(j, "id")
    case Some(id) => Success(id)
    case None => Failure(MissingId(j))
  }

  /** The names of the schema's array-typed relation fields. */
  function ArrayAssociations(schema: ModelSchema): set<string>
  {
    set k | k in schema.fields && schema.fields[k].IsArrayAssociation()
  }

  /** A field the decoder fills in when the payload lacks it: an array relation
      that names its inverse field. */
  predicate Expands(f: ModelField) {
    f.IsArrayAssociation() && f.associatedField.Some?
  }

  /** The synthetic value a lazy list is later built from. */
  function Placeholder(id: string, inverseName: string): JSON {
    JObject(map["associatedId" := JString(id), "associatedField" := JString(inverseName)])
  }

  /** The update loop of `decodeToModelWithConnections`: every expandable field
      whose name the payload does not hold gets a placeholder; nothing else
      changes. A key holding null is present and is kept. */
  function InjectPlaceholders(obj: map<string, JSON>, schema: ModelSchema, id: string): (r: map<string, JSON>)
    requires WellFormed(schema)
    ensures forall k | k in obj :: k in r && r[k] == obj[k]
    ensures forall k | k in schema.fields && Expands(schema.fields[k]) :: k in r
    ensures forall k | k in r && k !in obj ::
              && k in schema.fields
              && Expands(schema.fields[k])
              && r[k] == Placeholder(id, schema.fields[k].associatedField.value.name)
  {
    var added := map f | f in schema.fields.Values && Expands(f) && f.name !in obj
                   :: f.name := Placeholder(id, f.associatedField.value.name);
    assert forall k | k in schema.fields && Expands(schema.fields[k]) && k !in obj ::
             k in added by {
      forall k | k in schema.fields && Expands(schema.fields[k]) && k !in obj
        ensures k in added
      {
        assert schema.fields[k] in schema.fields.Values;
      }
    }
    obj + added
  }

  /** `decodeToModelWithConnections`. `Success(None)` is "no expansion": the
      type name is not registered, or the schema has no array relation. */
  function DecodeToModelWithConnections(data: JSON, registry: Registry, codec: Codec)
    : (r: Result<Option<Decoded>, APIError>)
    requires WellFormedRegistry(registry)
    ensures GetModelName(data).Failure? ==> r == Failure(MissingTypename(data))
    ensures r == Success(None) <==>
              && GetModelName(data).Success?
              && var name := GetModelName(data).value;
                 name !in registry || ArrayAssociations(registry[name]) == {}
    ensures r == Failure(MissingId(data)) <==>
              && GetModelName(data).Success?
              && var name := GetModelName(data).value;
                 name in registry && ArrayAssociations(registry[name]) != {} && GetId(data).Failure?
    ensures r.Success? && r.value.Some? ==>
              && data.JObject?
              && var schema := registry[data.fields["__typename"].s];
                 var expanded := JObject(InjectPlaceholders(data.fields, schema, data.fields["id"].s));
                 r.value.value == ModelValue(expanded) && codec.decodes(expanded)
    ensures r.Failure? ==>
              r.error in {MissingTypename(data), MissingId(data), CodingError}
    ensures r == Failure(MissingTypename(data)) ==> GetModelName(data).Failure?
    ensures && GetModelName(data).Success?
            && GetModelName(data).value in registry
            && ArrayAssociations(registry[GetModelName(data).value]) != {}
            && GetId(data).Success?
            ==> (r.Success? <==>
                   codec.decodes(JObject(InjectPlaceholders(data.fields, registry[GetModelName(data).value],
                                                            GetId(data).value))))
  {
    var modelName :- GetModelName(data);
    if modelName !in registry then Success(None)
    else
      var schema := registry[modelName];
      if ArrayAssociations(schema) == {} then Success(None)
      else
        var id :- GetId(data);
        match data
        case JObject(obj) =>
          var expanded := JObject(InjectPlaceholders(obj, schema, id));
          if codec.decodes(expanded) then Success(Some(ModelValue(expanded)))
          else Failure(CodingError)
        case _ => Success(None)
  }

  /** `decodeToAppSyncList`: the payload keeps the request's document and the
      subtree, and carries variables exactly when the request has them; the
      call fails only when the payload's Codable round trip does. */
  function DecodeToAppSyncList(data: JSON, request: Request, codec: Codec): (r: Result<Decoded, APIError>)
    ensures r.Success? <==> codec.decodesList(ListPayload(request.document, request.variables, data))
    ensures r.Success? ==>
              && r.value.ListValue?
              && r.value.payload.document == request.document
              && r.value.payload.graphQLData == data
              && r.value.payload.variables == request.variables
              && codec.decodesList(r.value.payload)
    ensures r.Failure? ==> r.error == CodingError
  {
    var payload := ListPayload(request.document, request.variables, data);
    if codec.decodesList(payload) then Success(ListValue(payload)) else Failure(CodingError)
  }

  /** `decodeToResponseType`: resolve the decode path; a `String` or `AnyModel`
      response type is handled by type, and any other type is decoded first and
      then dispatched on the decoded value. A model with no expansion, and a
      `nil` of an optional type, fall back to the plain decoded value. */
  function DecodeToResponseType(graphQLData: map<string, JSON>, request: Request, registry: Registry, codec: Codec)
    : (r: Result<Decoded, APIError>)
    requires WellFormedRegistry(registry)
    ensures ValueAtDecodePath(request, JObject(graphQLData)).Failure? ==>
              r == Failure(DecodePathError(request.decodePath.value))
    ensures r.Success? ==>
              && ValueAtDecodePath(request, JObject(graphQLData)).Success?
              && var subtree := ValueAtDecodePath(request, JObject(graphQLData)).value;
                 var kind := request.responseKind;
                 && (kind == StringResponse ==> r.value == Text(subtree))
                 && (kind == AnyModelResponse ==> r.value == AnyModelValue(subtree))
                 && (DecodesToModel(kind, subtree) ==>
                       r.value.ModelValue? && GetModelName(subtree).Success?)
                 && (DecodesToList(kind, subtree) ==>
                       r.value.ListValue? && r.value.payload.graphQLData == subtree)
                 && (kind != StringResponse && kind != AnyModelResponse
                     && !DecodesToModel(kind, subtree) && !DecodesToList(kind, subtree) ==>
                       r.value == PlainValue(subtree))
    ensures request.responseKind == StringResponse ==>
              (r.Success? <==> ValueAtDecodePath(request, JObject(graphQLData)).Success?)
    ensures && ValueAtDecodePath(request, JObject(graphQLData)).Success?
            && request.responseKind != StringResponse
            && !codec.decodes(ValueAtDecodePath(request, JObject(graphQLData)).value)
            ==> r == Failure(CodingError)
    ensures ValueAtDecodePath(request, JObject(graphQLData)).Success? ==>
              var subtree := ValueAtDecodePath(request, JObject(graphQLData)).value;
              (&& request.responseKind != StringResponse
               && !DecodesToModel(request.responseKind, subtree)
               && !DecodesToList(request.responseKind, subtree)
               ==> (r.Success? <==> codec.decodes(subtree)))
  {
    var subtree :- ValueAtDecodePath(request, JObject(graphQLData));
    var kind := request.responseKind;
    if kind == StringResponse then Success(Text(subtree))
    else if kind == AnyModelResponse then
      if codec.decodes(subtree) then Success(AnyModelValue(subtree)) else Failure(CodingError)
    else if !codec.decodes(subtree) then Failure(CodingError)
    else if DecodesToModel(kind, subtree) then
      var expanded :- DecodeToModelWithConnections(subtree, registry, codec);
      match expanded
      case Some(value) => Success(value)
      case None => Success(ModelValue(subtree))
    else if DecodesToList(kind, subtree) then DecodeToAppSyncList(subtree, request, codec)
    else Success(PlainValue(subtree))
  }

  /** A dot-separated path of dot-free keys resolves exactly as a walk along those
      keys. */
  lemma DecodePathOfKeys(request: Request, data: JSON, keys: seq<string>)
    requires |keys| >= 1
    requires forall i | 0 <= i < |keys| :: PathSeparator !in keys[i]
    requires request.decodePath == Some(Join(keys, PathSeparator))
    ensures ValueAt(data, keys).None? ==>
              ValueAtDecodePath(request, data) == Failure(DecodePathError(Join(keys, PathSeparator)))
    ensures ValueAt(data, keys).Some? ==> ValueAtDecodePath(request, data) == Success(ValueAt(data, keys).value)
  {
    SplitJoin(keys, PathSeparator);
  }

  /** Expansion is idempotent: once the placeholders are in, a second pass (even
      with another id) finds every expandable key present and changes nothing. */
  lemma InjectIdempotent(obj: map<string, JSON>, schema: ModelSchema, id: string, otherId: string)
    requires WellFormed(schema)
    ensures InjectPlaceholders(InjectPlaceholders(obj, schema, id), schema, otherId)
            == InjectPlaceholders(obj, schema, id)
  {
    var once := InjectPlaceholders(obj, schema, id);
    InjectKeepsCompletePayload(once, schema, otherId);
  }

  /** A payload that already holds every expandable key comes back unchanged. */
  lemma InjectKeepsCompletePayload(obj: map<string, JSON>, schema: ModelSchema, id: string)
    requires WellFormed(schema)
    requires forall k | k in schema.fields && Expands(schema.fields[k]) :: k in obj
    ensures InjectPlaceholders(obj, schema, id) == obj
  {
    var r := InjectPlaceholders(obj, schema, id);
    assert forall k | k in r :: k in obj;
    assert r.Keys == obj.Keys;
    assert forall k | k in r :: r[k] == obj[k];
  }

  /** Every model-typed response whose Codable decode succeeds needs a string
      `__typename`: without one the call fails with that error, whatever the
      registry holds. */
  lemma ModelNeedsTypename(graphQLData: map<string, JSON>, request: Request, registry: Registry, codec: Codec)
    requires WellFormedRegistry(registry)
    requires ValueAtDecodePath(request, JObject(graphQLData)).Success?
    requires DecodesToModel(request.responseKind, ValueAtDecodePath(request, JObject(graphQLData)).value)
    requires codec.decodes(ValueAtDecodePath(request, JObject(graphQLData)).value)
    requires GetModelName(ValueAtDecodePath(request, JObject(graphQLData)).value).Failure?
    ensures DecodeToResponseType(graphQLData, request, registry, codec)
            == Failure(MissingTypename(ValueAtDecodePath(request, JObject(graphQLData)).value))
  {
  }

  /** With nothing to expand the decoded subtree is returned as it is, and a
      missing `id` is no error. */
  lemma UnexpandedModelFallsBack(graphQLData: map<string, JSON>, request: Request, registry: Registry, codec: Codec)
    requires WellFormedRegistry(registry)
    requires ValueAtDecodePath(request, JObject(graphQLData)).Success?
    requires DecodesToModel(request.responseKind, ValueAtDecodePath(request, JObject(graphQLData)).value)
    requires codec.decodes(ValueAtDecodePath(request, JObject(graphQLData)).value)
    requires GetModelName(ValueAtDecodePath(request, JObject(graphQLData)).value).Success?
    requires var name := GetModelName(ValueAtDecodePath(request, JObject(graphQLData)).value).value;
             name !in registry || ArrayAssociations(registry[name]) == {}
    ensures DecodeToResponseType(graphQLData, request, registry, codec)
            == Success(ModelValue(ValueAtDecodePath(request, JObject(graphQLData)).value))
  {
  }

  // Fixtures taken from the decoder's unit tests and the connection-test models.
  // The example lemmas take their envelope and request as parameters fixed by
  // `requires x == ...` rather than as literals in the ensures: applied to a
  // literal path, `Split` would be unrolled character by character, which
  // costs the verifier far more than going through `DataPathLookup`.

  /** The decode path `data.<field>` the tests use. */
  function DataPath(field: string): string {
    "data" + [PathSeparator] + field
  }

  function AcceptAll(): Codec {
    Codec(_ => true, _ => true)
  }

  function SimpleModelEnvelope(field: string): map<string, JSON> {
    map["data" := JObject(map[field := JObject(map["id" := JString("id")])])]
  }

  /** Resolving `data.<field>` in `{"data": {<field>: subtree}}`. */
  lemma DataPathLookup(env: map<string, JSON>, request: Request, field: string, subtree: JSON)
    requires PathSeparator !in field
    requires env == map["data" := JObject(map[field := subtree])]
    requires request.decodePath == Some(DataPath(field))
    ensures ValueAtDecodePath(request, JObject(env)) == Success(subtree)
  {
    assert Join(["data", field], PathSeparator) == DataPath(field);
    assert PathSeparator !in "data";
    DecodePathOfKeys(request, JObject(env), ["data", field]);
    var inner := JObject(map[field := subtree]);
    assert Member(JObject(env), "data") == Some(inner);
    assert ValueAt(inner, [field]) == Some(subtree) by {
      assert ValueAt(subtree, []) == Some(subtree);
    }
  }

  /** The decode path `data.getSimpleModel` picks the nested object, and a
      `String` response is its serialization. */
  lemma DecodeToStringExample(env: map<string, JSON>, request: Request)
    requires env == SimpleModelEnvelope("getSimpleModel")
    requires request == Request("", None, StringResponse, Some(DataPath("getSimpleModel")))
    ensures DecodeToResponseType(env, request, map[], AcceptAll())
            == Success(Text(JObject(map["id" := JString("id")])))
  {
    DataPathLookup(env, request, "getSimpleModel", JObject(map["id" := JString("id")]));
  }

  /** The code rejects a model payload without `__typename` even though the
      type is not registered: `getModelName` runs before the registry lookup. */
  lemma DecodeToModelWithoutTypenameFails(env: map<string, JSON>, request: Request, registry: Registry)
    requires env == SimpleModelEnvelope("getSimpleModel")
    requires request == Request("", None, ModelResponse, Some(DataPath("getSimpleModel")))
    requires WellFormedRegistry(registry)
    ensures DecodeToResponseType(env, request, registry, AcceptAll())
            == Failure(MissingTypename(JObject(map["id" := JString("id")])))
  {
    DataPathLookup(env, request, "getSimpleModel", JObject(map["id" := JString("id")]));
    ModelNeedsTypename(env, request, registry, AcceptAll());
  }

  function PostV2Payload(): map<string, JSON> {
    map["id" := JString("postId123"), "title" := JString("title"), "__typename" := JString("PostV2")]
  }

  /** With a registered schema that has an array relation and a string `id`,
      the result is the payload with its placeholders injected. */
  lemma ExpandedModel(graphQLData: map<string, JSON>, request: Request, registry: Registry, codec: Codec,
                      subtree: map<string, JSON>, schema: ModelSchema, id: string)
    requires WellFormedRegistry(registry)
    requires request.responseKind == ModelResponse || request.responseKind == OptionalModelResponse
    requires ValueAtDecodePath(request, JObject(graphQLData)) == Success(JObject(subtree))
    requires codec.decodes(JObject(subtree))
    requires "__typename" in subtree && subtree["__typename"].JString?
    requires subtree["__typename"].s in registry && registry[subtree["__typename"].s] == schema
    requires ArrayAssociations(schema) != {}
    requires "id" in subtree && subtree["id"] == JString(id)
    requires codec.decodes(JObject(InjectPlaceholders(subtree, schema, id)))
    ensures DecodeToResponseType(graphQLData, request, registry, codec)
            == Success(ModelValue(JObject(InjectPlaceholders(subtree, schema, id))))
  {
  }

  /** `comments` is the only field of `PostV2` the decoder expands. */
  lemma PostV2Expands(schema: ModelSchema)
    requires schema == PostV2Schema()
    ensures forall k | k in schema.fields && Expands(schema.fields[k]) :: k == "comments"
    ensures "comments" in schema.fields && schema.fields["comments"] == CommentsField()
  {
    forall k | k in schema.fields && Expands(schema.fields[k]) ensures k == "comments" {
      assert k in {"id", "title", "description", "comments"};
    }
  }

  /** The placeholder injection for the `PostV2` fixture. */
  lemma PostV2Injection(payload: map<string, JSON>, schema: ModelSchema)
    requires payload == PostV2Payload() && schema == PostV2Schema()
    ensures WellFormed(schema)
    ensures InjectPlaceholders(payload, schema, "postId123")
            == payload["comments" := Placeholder("postId123", "postID")]
  {
    PostCommentV2RegistryWellFormed();
    PostV2Expands(schema);
    var r := InjectPlaceholders(payload, schema, "postId123");
    var expanded := payload["comments" := Placeholder("postId123", "postID")];
    assert "comments" !in payload;
    assert r.Keys == expanded.Keys;
  }

  /** A `PostV2` without `comments` gets a placeholder pointing back through
      `postID` at the post's id; the other keys are kept. This holds for a
      `PostV2` response and for the `PostV2?` that `.get(PostV2.self, byId:)`
      asks for alike. */
  lemma DecodePostV2Example(env: map<string, JSON>, request: Request, kind: ResponseKind)
    requires kind == ModelResponse || kind == OptionalModelResponse
    requires env == map["data" := JObject(map["getPostV2" := JObject(PostV2Payload())])]
    requires request == Request("", None, kind, Some(DataPath("getPostV2")))
    ensures DecodeToResponseType(env, request, PostCommentV2Registry(), AcceptAll())
            == Success(ModelValue(JObject(PostV2Payload()["comments" := Placeholder("postId123", "postID")])))
  {
    var payload := PostV2Payload();
    var schema := PostV2Schema();
    DataPathLookup(env, request, "getPostV2", JObject(payload));
    PostCommentV2RegistryWellFormed();
    PostV2Injection(payload, schema);
    assert schema.fields["comments"].IsArrayAssociation();
    assert "comments" in ArrayAssociations(schema);
    ExpandedModel(env, request, PostCommentV2Registry(), AcceptAll(), payload, schema, "postId123");
  }

  /** A `nil` of an optional model or list type is returned as decoded: no
      `__typename` is read and nothing is expanded. */
  lemma NullOptionalIsNil(graphQLData: map<string, JSON>, request: Request, registry: Registry, codec: Codec)
    requires WellFormedRegistry(registry)
    requires request.responseKind == OptionalModelResponse || request.responseKind == OptionalModelListResponse
    requires ValueAtDecodePath(request, JObject(graphQLData)) == Success(JNull)
    requires codec.decodes(JNull)
    ensures DecodeToResponseType(graphQLData, request, registry, codec) == Success(PlainValue(JNull))
  {
  }

  /** `.get(PostV2.self, byId:)` for a deleted post: the service answers
      `{"getPostV2": null}` and the `PostV2?` response is `nil`, with the
      connection registry in place. */
  lemma DeletedPostV2GetIsNil(env: map<string, JSON>, request: Request)
    requires env == map["data" := JObject(map["getPostV2" := JNull])]
    requires request == Request("", None, OptionalModelResponse, Some(DataPath("getPostV2")))
    ensures DecodeToResponseType(env, request, PostCommentV2Registry(), AcceptAll()) == Success(PlainValue(JNull))
  {
    DataPathLookup(env, request, "getPostV2", JNull);
    PostCommentV2RegistryWellFormed();
    NullOptionalIsNil(env, request, PostCommentV2Registry(), AcceptAll());
  }

  function SimpleModelPage(): JSON {
    JObject(map["items" := JArray([JObject(map["id" := JString("id1")]), JObject(map["id" := JString("id2")])]),
                "nextToken" := JString("nextToken123")])
  }

  /** A list response is built from the request's document and variables and
      the subtree at the decode path. */
  lemma ListResponse(graphQLData: map<string, JSON>, request: Request, registry: Registry, codec: Codec, subtree: JSON)
    requires WellFormedRegistry(registry)
    requires ValueAtDecodePath(request, JObject(graphQLData)) == Success(subtree)
    requires DecodesToList(request.responseKind, subtree)
    requires codec.decodes(subtree)
    requires codec.decodesList(ListPayload(request.document, request.variables, subtree))
    ensures DecodeToResponseType(graphQLData, request, registry, codec)
            == Success(ListValue(ListPayload(request.document, request.variables, subtree)))
  {
  }

  /** The `items`/`nextToken` page of the list test is handed on whole, with the
      request's document and no variables. */
  lemma DecodeToModelListExample(env: map<string, JSON>, request: Request)
    requires env == map["data" := JObject(map["listSimpleModels" := SimpleModelPage()])]
    requires request == Request("", None, ModelListResponse, Some(DataPath("listSimpleModels")))
    ensures DecodeToResponseType(env, request, map[], AcceptAll())
            == Success(ListValue(ListPayload("", None, SimpleModelPage())))
  {
    DataPathLookup(env, request, "listSimpleModels", SimpleModelPage());
    ListResponse(env, request, map[], AcceptAll(), SimpleModelPage());
  }
}

=== FILE: schema.dfy ===
/** The reflective model metadata the decoder and the lazy list consult: the part
    of Amplify's `ModelSchema` and `ModelField` this core reads, and the
    registry that maps a `__typename` to a schema. */
module Schema {
  import opened Wrappers

  /** The relation kind of a field. `BelongsTo` may name the foreign-key field
      that holds the parent's id (`targetName`). */
  datatype Association = HasMany | HasOne | BelongsTo(targetName: Option<string>)

  /** A field of a model. `associatedField` is the inverse field on the related
      model, when the relation names one. */
  datatype ModelField = ModelField(
    name: string,
    isArray: bool,
    association: Option<Association>,
    associatedField: Option<ModelField>)
  {
    predicate HasAssociation() {
      association.Some?
    }

    /** A to-many relation: the fields the decoder may expand. */
    predicate IsArrayAssociation() {
      isArray && HasAssociation()
    }
  }

  /** `fields` is keyed by field name, as Swift's `ModelFields` dictionary is. */
  datatype ModelSchema = ModelSchema(name: string, fields: map<string, ModelField>)

  /** Every field is stored under its own name. */
  predicate WellFormed(schema: ModelSchema) {
    forall k | k in schema.fields :: schema.fields[k].name == k
  }

  /** `ModelRegistry`: registered schemas by model name. */
  type Registry = map<string, ModelSchema>

  predicate WellFormedRegistry(registry: Registry) {
    forall n | n in registry :: WellFormed(registry[n])
  }

  function ScalarField(name: string): ModelField {
    ModelField(name, false, None, None)
  }

  // Fixtures: the generated schemas of the connection tests.

  function CommentV2Schema(): ModelSchema {
    ModelSchema("CommentV2", map[
      "id" := ScalarField("id"),
      "content" := ScalarField("content"),
      "postID" := ScalarField("postID")])
  }

  /** `PostV2.comments`: a has-many relation whose inverse is `CommentV2.postID`. */
  function CommentsField(): ModelField {
    ModelField("comments", true, Some(HasMany), Some(ScalarField("postID")))
  }

  /** `comments` is a has-many relation associated with `CommentV2.postID`. */
  function PostV2Schema(): ModelSchema {
    ModelSchema("PostV2", map[
      "id" := ScalarField("id"),
      "title" := ScalarField("title"),
      "description" := ScalarField("description"),
      "comments" := CommentsField()])
  }

  /** `Comment6.post` belongs to `Post6` through the foreign key `postID`. */
  function Comment6PostField(): ModelField {
    ModelField("post", false, Some(BelongsTo(Some("postID"))), None)
  }

  function PostCommentV2Registry(): Registry {
    map["PostV2" := PostV2Schema(), "CommentV2" := CommentV2Schema()]
  }

  /** Every `PostV2` field is stored under its own name. */
  lemma PostV2SchemaWellFormed()
    ensures WellFormed(PostV2Schema())
  {
    var post := PostV2Schema();
    forall k | k in post.fields ensures post.fields[k].name == k {
      assert k in {"id", "title", "description", "comments"};
    }
  }

  /** Every `CommentV2` field is stored under its own name. */
  lemma CommentV2SchemaWellFormed()
    ensures WellFormed(CommentV2Schema())
  {
    var comment := CommentV2Schema();
    forall k | k in comment.fields ensures comment.fields[k].name == k {
      assert k in {"id", "content", "postID"};
    }
  }

  /** The registry the connection tests register, `PostV2` and `CommentV2`. */
  lemma PostCommentV2RegistryWellFormed()
    ensures WellFormedRegistry(PostCommentV2Registry())
  {
    PostV2SchemaWellFormed();
    CommentV2SchemaWellFormed();
  }
}

=== FILE: sort_decorator.dfy ===
/** `SortDecorator`: sets the `sort` input of any document to the GraphQL form
    of a sort order. */
module SortDecorator {
  import opened Wrappers
  import opened Json
  import opened GraphQLDocument
  import opened QuerySortGraphQL
  import FilterDecorator

  function SortInputType(modelName: string): string {
    "Searchable" + modelName + "SortInput"
  }

  /** The sort map as an object input value. */
  function SortObject(sort: GraphQLSort): map<string, JSON> {
    map k | k in sort :: JString(sort[k])
  }

  function Decorate(sortBy: QuerySortBy, document: Document, modelName: string): (r: Document)
    ensures r.operationType == document.operationType && r.name == document.name
    ensures "sort" in r.inputs
    ensures r.inputs["sort"].typeName == SortInputType(modelName)
    ensures r.inputs["sort"].value == ObjectValue(SortObject(GraphQLSortOf(sortBy)))
    ensures SameInputsExcept(document, r, "sort")
  {
    var inputs := document.inputs;
    CopyInputs(document, inputs["sort" := DocumentInput(SortInputType(modelName), ObjectValue(SortObject(GraphQLSortOf(sortBy))))])
  }

  /** The stored object holds exactly `field` and `direction`, as strings. */
  lemma SortValueShape(sortBy: QuerySortBy, document: Document, modelName: string)
    ensures var v := Decorate(sortBy, document, modelName).inputs["sort"].value.fields;
            && v.Keys == {"field", "direction"}
            && v["field"] == JString(sortBy.field)
            && v["direction"] == JString(if sortBy.Descending? then "desc" else "asc")
  {
  }

  /** The operation type plays no part: decorating a query, a mutation or a
      subscription writes the same inputs. */
  lemma IgnoresOperationType(sortBy: QuerySortBy, document: Document, modelName: string, op: OperationType)
    ensures Decorate(sortBy, document.(operationType := op), modelName).inputs
            == Decorate(sortBy, document, modelName).inputs
  {
  }

  /** An existing sort input is overwritten: the last sort order wins, and
      decorating twice with one order is decorating once. */
  lemma LastSortWins(first: QuerySortBy, second: QuerySortBy, document: Document, modelName: string)
    ensures Decorate(second, Decorate(first, document, modelName), modelName)
            == Decorate(second, document, modelName)
    ensures Decorate(first, Decorate(first, document, modelName), modelName)
            == Decorate(first, document, modelName)
  {
  }

  /** Filter and sort write different keys, so their order does not matter. */
  lemma CommutesWithFilter(sortBy: QuerySortBy, filter: FilterDecorator.GraphQLFilter,
                           queryType: Option<FilterDecorator.QueryType>, document: Document, modelName: string)
    ensures Decorate(sortBy, FilterDecorator.Decorate(filter, queryType, document, modelName), modelName)
            == FilterDecorator.Decorate(filter, queryType, Decorate(sortBy, document, modelName), modelName)
  {
  }
}

=== FILE: wrappers.dfy ===
/** Optional values and success/failure results, the Dafny stand-ins for Swift's
    `Optional` and for functions that `throw`. */
module Wrappers {

  datatype Option<+T> = None | Some(value: T)

  datatype Result<+R, +E> = Success(value: R) | Failure(error: E) {

    predicate IsFailure() {
      Failure?
    }

    function PropagateFailure<U>(): Result<U, E>
      requires Failure?
    {
      Failure(error)
    }

    function Extract(): R
      requires Success?
    {
      value
    }
  }
}
